=== FILE: README.md ===
# Node-selection coordinator of a small computing cluster

The coordinator (`MasterAgent`) keeps a registry of worker nodes. For each node it holds:
- an energy rating in watts;
- performance statistics;
- the latest telemetry (CPU and RAM usage, temperature).

It scores every reporting node, hands the next task to the best one and logs each decision. A variant (`MasterAgentWithOllama`) lets a local language model override the numeric choice. It also turns away nodes that ask for work while their score is too low. Workers run a stand-alone check of their own readings (`decide_node_assignment`).

The model is functional. The coordinator's state is an immutable `Agents.Agent` record:
- `map`s keyed by node id;
- the insertion order of the energy and telemetry dictionaries, kept as sequences, because Python iterates dictionaries in that order and both tie-breaking and reply parsing depend on it;
- the decision log as a sequence.

Each operation is a pure function from state to state. Arithmetic is exact (`real`). A Python `ZeroDivisionError` becomes a `Failure` value.

Modules:
- `Wrappers`: `Option` and `Result`.
- `Text`: Python's `strip`, `split('\n')[0]`, ASCII `lower` and substring `in`.
- `Weighting`: the five-weight vector, validation, load-dependent rescaling and renormalisation.
- `Agents`: the state, its invariant `Wf`, construction, registration, telemetry updates and performance bookkeeping.
- `Scoring`: the hard cut-offs, the five sub-scores and the weighted score.
- `Selection`: `select_best_node` and `adjust_weights_from_history`.
- `Advisor`: reply parsing, the advisory selection and the admission check.
- `Assignment`: the worker-side verdict.

The model follows the code in these behaviours:
- The language-model override checks only that the named node has reported telemetry. It can therefore return a node blocked by a cut-off, with score 0 (`Advisor.OverrideMayPickBlockedNode`).
- `select_best_node` with no reporting node returns `(None, 0, {})` and writes no log record.
- A newly registered node starts with success rate 1.0. The value 0.5 is only the scorer's fallback for a node without statistics, which a well-formed state never contains for a reporting node.
- `register_node` on a known node resets its statistics.

## Model

| member | source | states |
|---|---|---|
| Agents.New | IA_subdivision/agente.py:9-22 | Construction fails exactly when the weights (the defaults when none are given) sum to more than 0.01 away from 1.0, with the offending total in the error. On success the state is well formed, with empty registries and log. |
| Agents.DefaultConstructionSucceeds | IA_subdivision/agente.py:11-22 | The default weights 0.30/0.25/0.15/0.20/0.10 are accepted. |
| Weighting.DefaultSumsToOne | IA_subdivision/agente.py:11-21 | The default weights are non-negative and sum to exactly 1.0. |
| Weighting.SumsToOneRange | IA_subdivision/agente.py:20-21 | Validation accepts exactly the totals in [0.99, 1.01]. |
| Agents.RegisterNode | IA_subdivision/agente.py:44-53 | Sets the node's rating and resets its statistics to zero counts with success rate 1.0, whether or not it was known. A new node goes last in the registration order and a known one keeps its place. No other node's entry and no other field changes. |
| Agents.RegisterNodeKeepsWf | IA_subdivision/agente.py:44-53 | Registration preserves the state invariant (key sets agree, orders mirror the dictionaries, statistics are consistent). |
| Agents.UpdateNodeData | IA_subdivision/agente.py:56-62 | Overwrites the node's telemetry. Registers it at 100 W with fresh statistics only when it has no rating, and then appends it to the registration order; an existing rating, statistics and place in the order are kept. |
| Agents.UpdateNodeDataKeepsWf | IA_subdivision/agente.py:56-62 | Telemetry updates preserve the state invariant, including that every reporting node is registered. |
| Agents.Remember | IA_subdivision/agente.py:58 | Python dictionary insertion order: a new key goes last, an existing key keeps its place, and ids stay distinct. |
| Agents.Record | IA_subdivision/agente.py:185-196 | A success adds one completion and the elapsed time, and the average is total/completions. A failure adds one failure and leaves times unchanged. The rate times the task count equals the completions. Consistent statistics stay consistent. |
| Agents.UpdatePerformance | IA_subdivision/agente.py:177-196 | Records the outcome for the node. A node without statistics is first registered at 100 W with fresh statistics and appended to the registration order. The telemetry, the reporting order, the weights and the log are unchanged. |
| Agents.UpdatePerformanceKeepsWf | IA_subdivision/agente.py:177-196 | Performance updates preserve the state invariant. |
| Agents.UpdatePerformanceRates | IA_subdivision/agente.py:187-196 | After an update the node has at least one task, its success rate is completed/(completed+failures) and lies in [0, 1], and its average time is total/completed. |
| Agents.ThreeSuccessesOneFailure | IA_subdivision/agente.py:177-196 | Three successes then one failure on a fresh node give rate 0.75, three completions, one failure and the sum of the three times. |
| Scoring.CutOffReadings | IA_subdivision/agente.py:78-88 | A node is cut off exactly when its known temperature exceeds 85 °C, or its RAM or CPU reading is missing or exceeds 95 %. A missing temperature never cuts a node off. |
| Scoring.MaxWattsIsMax | IA_subdivision/agente.py:105-106 | The energy normaliser is the largest registered rating, or 100 when none is registered. |
| Scoring.Score | IA_subdivision/agente.py:64-139 | A node above 85 °C, 95 % RAM or 95 % CPU scores exactly 0. Otherwise the score faults exactly when the largest rating is 0 or the rescaled weights sum to 0. |
| Scoring.MissingReadingScoresZero | IA_subdivision/agente.py:78-88 | A missing CPU or RAM reading counts as 100 % and the score is 0. |
| Scoring.TemperatureFactorRange | IA_subdivision/agente.py:99-102 | The temperature sub-score is 0.5 when the temperature is unknown and is never negative. A known temperature gives 0 exactly when it is at least 85 °C, a value in [0, 1] when it is not negative, and (85 − t)/85 for t in [0, 85]. |
| Scoring.EnergyFactorRange | IA_subdivision/agente.py:105-107 | For a positive rating at most the maximum, the energy sub-score lies in [0, 1). |
| Scoring.HistoryFactorRange | IA_subdivision/agente.py:109-111 | A node without statistics gets the neutral 0.5. A node with consistent statistics gets its success rate, which lies in [0, 1]. |
| Scoring.SubScoresMeaning | IA_subdivision/agente.py:90-111 | The CPU sub-score is 1 exactly for a reported idle CPU and 0 exactly for a CPU at 100 % or unreported. The RAM sub-score is 0 exactly for RAM at 100 % or unreported. The node holding the largest rating gets energy credit 0. An unrated node is taken at 100 W, so its credit is 0 exactly when the normaliser is 100. A node without statistics gets history 0.5. |
| Scoring.SubScoresInUnit | IA_subdivision/agente.py:90-111 | In a well-formed state with positive ratings, for a registered node with readings in [0, 100] that passes the cut-offs, all five sub-scores lie in [0, 1] and the energy sub-score is below 1. |
| Scoring.DotExtremes | IA_subdivision/agente.py:131-137 | Sub-scores all 1 earn the whole weight total, so a perfect node scores 1 under normalised weights. Sub-scores all 0 earn 0. |
| Scoring.DotInUnit | IA_subdivision/agente.py:131-137 | A weighted sum with non-negative weights summing to 1 over sub-scores in [0, 1] lies in [0, 1]. |
| Scoring.ScoreInUnit | IA_subdivision/agente.py:64-139 | In a well-formed state with non-negative weights and positive ratings, for a registered node with readings in [0, 100], the score never faults and lies in [0, 1]. |
| Scoring.ScoreMonotoneInCpu | IA_subdivision/agente.py:87-93 | In a well-formed state with non-negative weights and positive ratings, for a registered node with readings in [0, 100], raising only the CPU usage within [0, 100] never raises the score, across the 95 % cut-off too. Both scores succeed. |
| Weighting.AdjustForLoad | IA_subdivision/agente.py:114-125 | Load rescaling never touches the RAM or history weights. Labels other than "low" and "high" leave the weights unchanged. Non-negativity is preserved. |
| Weighting.LowLoadShiftsShares | IA_subdivision/agente.py:116-119 | Under "low", after renormalisation, the energy share does not shrink and the CPU share does not grow. |
| Weighting.HighLoadShiftsShares | IA_subdivision/agente.py:120-124 | Under "high", after renormalisation, the CPU and temperature shares do not shrink and the energy share does not grow. |
| Weighting.Normalize | IA_subdivision/agente.py:126-128 | The renormalised weights sum to 1, keep each weight's proportion of the total and stay non-negative. |
| Weighting.AdjustedTotalPositive | IA_subdivision/agente.py:114-127 | For validated non-negative weights the rescaled total is at least half the original, so renormalisation never divides by zero. |
| Selection.PickAbove | IA_subdivision/agente.py:154-164 | The loop with floor -1 and a strict `>` keeps the first position of the maximum, when that beats the floor; otherwise it keeps nothing and the floor. |
| Selection.PickAboveExactly | IA_subdivision/agente.py:154-164 | Any first maximal position above the floor is the one the loop picks. |
| Selection.ArgMax | IA_subdivision/agente_ollama.py:63 | Python's `max` with a key over a non-empty sequence returns the first maximal position. |
| Selection.PickAboveAgreesWithArgMax | IA_subdivision/agente.py:154-164 | The selection loop and Python's `max` agree whenever some score beats the floor. |
| Selection.ScoreEach | IA_subdivision/agente.py:158-160 | Scores every listed node in order; a fault is some node's fault. |
| Selection.ScoreMap | IA_subdivision/agente.py:156-160 | The score map has exactly the listed ids as keys, each holding its own score. |
| Selection.Decide | IA_subdivision/agente.py:154-164 | The selection over scored nodes: its map covers exactly the listed nodes, and every score is at most the returned one. The node, if any, is the first listed node with that score, which beats -1. With no node the score is -1. |
| Selection.SelectBest | IA_subdivision/agente.py:141-175 | With no reporting node the result is (None, 0, {}) and the state is unchanged. Otherwise it fails exactly when scoring the reporting nodes faults, and on success appends exactly one record holding the time, choice, score, scores and load. |
| Selection.SelectBestFails | IA_subdivision/agente.py:158-160 | Selection fails exactly when some reporting node's score faults. |
| Selection.SelectBestScores | IA_subdivision/agente.py:156-160 | The returned score map covers exactly the reporting nodes and holds each node's score. |
| Selection.SelectBestFirstMax | IA_subdivision/agente.py:154-175 | The choice is the first reporting node, in iteration order, with the highest score, if that beats -1. Otherwise there is no choice and the score is -1. |
| Selection.SelectBestKeepsWf | IA_subdivision/agente.py:166-173 | Selection changes only the log, which grows by one record exactly when some node has reported, and keeps the invariant. |
| Selection.SelectBestSelects | IA_subdivision/agente.py:151-164 | With sane weights, ratings and readings, some node is selected once any node has reported. |
| Selection.Recent | IA_subdivision/agente.py:204 | `log[-100:]`: for a positive n, the last n records, or all of them when there are fewer. |
| Selection.AdjustWeightsFromHistory | IA_subdivision/agente.py:198-210 | The state is unchanged, and the early return happens exactly when the log has fewer than 10 records. |
| Text.Strip | IA_subdivision/agente_ollama.py:109-111 | The result is a contiguous slice of the input with no leading or trailing Python whitespace, and only whitespace was removed. |
| Text.LowerFolds | IA_subdivision/agente_ollama.py:111-114 | Lower-casing leaves no upper-case ASCII letter, keeps every whitespace character where it was, and is idempotent. |
| Text.FirstLine | IA_subdivision/agente_ollama.py:109-111 | `split('\n')[0]`: the longest newline-free prefix. |
| Text.ContainsOccurs | IA_subdivision/agente_ollama.py:114 | The recursive substring test holds exactly when the needle occurs at some position of the haystack. |
| Advisor.MatchLineShape | IA_subdivision/agente_ollama.py:109-111 | The line searched for node ids is no longer than the reply, has no leading or trailing whitespace and no upper-case ASCII letter, and is its own lower-case form. |
| Advisor.FirstNamed | IA_subdivision/agente_ollama.py:113-115 | Returns the first id in order whose lower-cased form occurs in the line, or nothing exactly when none does. |
| Advisor.ParseReply | IA_subdivision/agente_ollama.py:106-116 | The parsed node, if any, is one that has reported telemetry. |
| Advisor.ParseReplyFindsFirstMention | IA_subdivision/agente_ollama.py:106-116 | The parse returns nothing exactly when no reporting id's lower-cased form occurs in the stripped, lower-cased first line. Otherwise it returns a reporting id that occurs there, the first such in iteration order. |
| Advisor.Advice | IA_subdivision/agente_ollama.py:45-55 | A recommendation is used only if the model is enabled, some node has reported, the reply is present and non-empty, and it names a non-empty reporting id. |
| Advisor.Fallback | IA_subdivision/agente_ollama.py:62-64 | The fallback returns the first maximal node, its score, and a score map covering all listed nodes. |
| Advisor.Choose | IA_subdivision/agente_ollama.py:55-66 | A recommended listed node wins. Otherwise the first maximal node is chosen, or (None, 0, {}) when no node is listed. The returned score is always the map entry of the returned node. |
| Advisor.SelectWithOllama | IA_subdivision/agente_ollama.py:35-66 | Fails exactly when scoring the reporting nodes faults. On success the result is the choice over their scores under the advice. The state is not changed, so the log is not written. |
| Advisor.SelectWithOllamaFails | IA_subdivision/agente_ollama.py:39-42 | The advisory path fails exactly when some reporting node's score faults. |
| Advisor.SelectWithOllamaScores | IA_subdivision/agente_ollama.py:39-66 | With no reporting node the result is (None, 0, {}) whatever the reply. Otherwise the score map covers exactly the reporting nodes and the returned score is the returned node's entry. |
| Advisor.SelectWithOllamaFollowsAdvice | IA_subdivision/agente_ollama.py:51-59 | A usable recommendation is returned as the choice. |
| Advisor.SelectWithOllamaFallsBack | IA_subdivision/agente_ollama.py:61-64 | Without a usable recommendation the choice is the first reporting node with the highest score. |
| Advisor.OverrideMayPickBlockedNode | IA_subdivision/agente_ollama.py:55-59 | A blocked node named by the model is returned, with score 0. |
| Advisor.FallbackAgreesWithSelectBest | IA_subdivision/agente_ollama.py:61-64 | Without usable advice, the advisory path chooses the same node as `select_best_node` whenever some score beats -1. |
| Advisor.FallbackAgreesWithDecide | IA_subdivision/agente_ollama.py:63 | Over the same scores, Python's `max` and the selection loop pick the same node once some score beats -1. |
| Advisor.SomeScoreAboveFloor | IA_subdivision/agente_ollama.py:39-42 | A reporting node whose score beats -1 appears, with that score, in the list of scores. |
| Advisor.Admit | IA_subdivision/agente_ollama.py:134-142 | A node without telemetry is let through unchecked. A reporting node is scored under "normal" load and rejected, with its score, exactly when the score is below 0.3. |
| Advisor.BlockedNodeRejected | IA_subdivision/agente_ollama.py:134-142 | A reporting node past a hard cut-off is always rejected. |
| Assignment.Classify | IA_subdivision/datos.py:36-43 | "Cool" exactly when a known temperature exceeds its threshold, whatever the RAM. Otherwise a missing RAM reading is an error, RAM above its threshold gives "lighten", and anything else gives "fit". |
| Assignment.DecideNodeAssignment | IA_subdivision/datos.py:36-43 | The result is the verdict's message and always one of the three fixed strings. |
| Assignment.MessageInjective | IA_subdivision/datos.py:39-43 | The three messages are pairwise different, so the string determines the verdict. |
| Assignment.AcceptedIff | IA_subdivision/datos.py:38-43 | A node is fit exactly when its temperature is unknown or at most the threshold and its RAM usage is at most its threshold. Readings equal to a threshold pass. |
| Assignment.SeverityMonotone | IA_subdivision/datos.py:38-43 | Higher readings never give a milder verdict. |
| Assignment.FitNodeNotCutOff | IA_subdivision/datos.py:36-43 | Under the default thresholds, a node the worker finds fit can be blocked by the coordinator only for CPU usage. |

## Left out

- The Flask endpoints, the module-level `master` and `app` globals, and the rest of `request_task_ollama`: network transport. Only its admission check is modelled.
- `monitor_loop` and its daemon thread: concurrency and console output.
- Interleaved requests: the model runs each operation to completion, one at a time. The source does not serialise its handlers: `app.run` serves each request on its own thread, and nothing locks `MasterAgent`'s dictionaries. So the rate bound of `Agents.UpdatePerformanceRates`, the invariant `Wf` and the selection results hold only for calls that do not interleave. Two concurrent `update_performance` calls for one node can store a rate above 1. A first `update_node_data` that arrives during `select_best_node`'s loop makes Python raise `RuntimeError` (dictionary changed size during iteration).
- `get_status_report`: it only formats a report.
- `load_weights_from_file` / `save_weights_to_file`: file I/O. Weights loaded there replace the validated ones without being checked again.
- `query_ollama`: an HTTP call with a timeout. Its answer is an input, `None` standing for an error or a timeout.
- `_build_ollama_prompt`: it only formats text for the model, and the prompt does not influence the modelled choice.
- The task queue (`add_task`, `get_next_task_for_node`): it is not defined in agente.py, agente_ollama.py or datos.py.
- `get_hardware_info`, `get_cpu_temp_linux` and the worker program `esclavo.py`: hardware and network I/O.
- The decision timestamp (`datetime.now().isoformat()`): an opaque input.
- Floating-point rounding: the model's arithmetic is exact. This moves the validation boundary: in binary floating point `1.01 - 1.0` is `0.010000000000000009`, so Python rejects weights totalling 1.01, while `Weighting.SumsToOneRange` accepts that total under exact reals.
- Weight dictionaries with keys other than the five known ones, and an empty weight dictionary (which Python's `or` replaces by the defaults): the model's weights are always the five named coefficients, with `None` for "not given".
- A JSON `null` in `cpu_percent` or `ram_percent`: Python's comparison would raise `TypeError`. The model treats these two fields as either present with a number or absent. A `null` `cpu_temp` is read as an unknown temperature, which is the model's `None`.
- Non-ASCII case folding in `str.lower()`: `Text.Lower` folds ASCII letters only.
- Console messages (`print`) of every operation.
- Weighting.AdjustForLoad: the exact scaling factors under "low" and "high" are stated through `LowLoadShiftsShares` and `HighLoadShiftsShares`, the direction in which each renormalised share moves, rather than as separate equalities in the function's contract.
- Scoring.ScoreInUnit: the docstring promises a score between 0 and 1 unconditionally, but the bound is proved only for non-negative weights, positive ratings and readings in [0, 100]. Outside these, negative ratings or weights can push the score below 0.
- Scoring.ScoreMonotoneInCpu: proved only under the same conditions as `ScoreInUnit`. With negative ratings the score at CPU 50 can be negative, while the cut-off gives exactly 0 at CPU 96.
- Selection.Recent: defined only for a positive count. Python's `log[-0:]` is the whole list, not an empty one, and the coordinator only ever asks for the last 100 records.

=== FILE: advisor.dfy ===
/** `MasterAgentWithOllama`: the numeric selection may be overridden by a
    node named in the first line of a language model's free-text reply; the
    reply itself (`query_ollama`) is an input, `None` standing for a failed
    or timed-out request. Also the admission check of `request_task_ollama`. */
module Advisor {
  import opened Wrappers
  import opened Text
  import opened Agents
  import opened Scoring
  import opened Selection

  /** The part of the reply that is searched for node ids: the reply is
      stripped, cut at its first newline, stripped again and lower-cased. */
  function MatchLine(reply: string): string {
    Lower(Strip(FirstLine(Strip(reply))))
  }

  /** The searched line is no longer than the reply, holds no upper-case
      letter, is its own lower-case form and has no surrounding whitespace. */
  lemma MatchLineShape(reply: string)
    ensures var r := MatchLine(reply);
            && |r| <= |reply|
            && (forall k :: 0 <= k < |r| ==> !('A' <= r[k] <= 'Z'))
            && (|r| > 0 ==> !IsSpace(r[0]) && !IsSpace(r[|r| - 1]))
            && Lower(r) == r
  {
    var outer := Strip(reply);
    var first := FirstLine(outer);
    var line := Strip(first);
    assert |line| <= |first| <= |outer| <= |reply|;
    LowerFolds(line);
  }

  /** The line mentions node `id`, ignoring the id's case. */
  predicate Names(line: string, id: NodeId) {
    Contains(line, Lower(id))
  }

  /** The first listed id that the line mentions. */
  function FirstNamed(ids: seq<NodeId>, line: string): (r: Option<NodeId>)
    ensures r.None? <==> forall i :: 0 <= i < |ids| ==> !Names(line, ids[i])
    ensures r.Some? ==> exists k ::
              && 0 <= k < |ids| && ids[k] == r.value && Names(line, ids[k])
              && forall j :: 0 <= j < k ==> !Names(line, ids[j])
  {
    if |ids| == 0 then None
    else if Names(line, ids[0]) then Some(ids[0])
    else
      var r := FirstNamed(ids[1..], line);
      assert forall i :: 1 <= i < |ids| ==> ids[1..][i - 1] == ids[i];
      if r.Some? then
        var k :| 0 <= k < |ids[1..]| && ids[1..][k] == r.value && Names(line, ids[1..][k])
                 && forall j :: 0 <= j < k ==> !Names(line, ids[1..][j]);
        assert ids[k + 1] == r.value;
        r
      else r
  }

  /** `_parse_ollama_response`: the first node, in iteration order, among
      those that have reported telemetry, whose lower-cased id the matched
      line mentions. */
  function ParseReply(a: Agent, reply: string): (r: Option<NodeId>)
    ensures r.Some? ==> r.value in a.reporting
  {
    FirstNamed(a.reporting, MatchLine(reply))
  }

  /** The parse returns a reported node whose lower-cased id occurs in the
      matched line, the first such node in iteration order, and `None`
      exactly when no reported id occurs there. */
  lemma ParseReplyFindsFirstMention(a: Agent, reply: string)
    ensures var r := ParseReply(a, reply);
            r.Some? ==> Occurs(Lower(r.value), MatchLine(reply))
    ensures var r := ParseReply(a, reply);
            r.None? <==> forall i :: 0 <= i < |a.reporting| ==> !Occurs(Lower(a.reporting[i]), MatchLine(reply))
    ensures var r := ParseReply(a, reply);
            r.Some? ==> exists k ::
              && 0 <= k < |a.reporting| && a.reporting[k] == r.value
              && forall j :: 0 <= j < k ==> !Occurs(Lower(a.reporting[j]), MatchLine(reply))
  {
    var line := MatchLine(reply);
    forall id: NodeId ensures Names(line, id) <==> Occurs(Lower(id), line) {
      ContainsOccurs(line, Lower(id));
    }
  }

  /** Whether the language model is asked at all. */
  predicate Consulted(a: Agent, useOllama: bool) {
    useOllama && a.telemetry != map[]
  }

  /** The node the reply recommends, if it is consulted, non-empty and
      parsed; the empty id is dropped because Python treats it as false. */
  function Advice(a: Agent, useOllama: bool, reply: Option<string>): (r: Option<NodeId>)
    ensures r.Some? ==> Consulted(a, useOllama) && reply.Some? && reply.value != ""
                        && ParseReply(a, reply.value) == r && r.value != ""
    ensures (&& Consulted(a, useOllama) && reply.Some? && reply.value != ""
             && ParseReply(a, reply.value).Some? && ParseReply(a, reply.value).value != "")
            ==> r.Some?
  {
    if Consulted(a, useOllama) && reply.Some? && reply.value != "" then
      var n := ParseReply(a, reply.value);
      if n.Some? && n.value != "" then n else None
    else None
  }

  /** The fallback of the advisory path: `max(scores_detail,
      key=scores_detail.get)` over the scores of the nodes `ids`. */
  function Fallback(ids: seq<NodeId>, xs: seq<real>): (s: Choice)
    requires |ids| == |xs| && Distinct(ids) && |ids| > 0
    ensures forall id :: id in s.scores <==> id in ids
    ensures forall i :: 0 <= i < |ids| ==> s.scores[ids[i]] == xs[i]
    ensures exists k ::
              && 0 <= k < |ids| && s.node == Some(ids[k]) && s.score == xs[k]
              && (forall i :: 0 <= i < |ids| ==> s.scores[ids[i]] <= s.score)
              && (forall j :: 0 <= j < k ==> s.scores[ids[j]] < s.score)
  {
    var k := ArgMax(xs);
    Choice(Some(ids[k]), xs[k], ScoreMap(ids, xs))
  }

  /** The choice among the nodes `ids` with scores `xs`: the advised node
      when it is one of them, otherwise the fallback, otherwise nothing. */
  function Choose(ids: seq<NodeId>, xs: seq<real>, advice: Option<NodeId>): (s: Choice)
    requires |ids| == |xs| && Distinct(ids)
    ensures |ids| == 0 ==> s == NoChoice
    ensures forall id :: id in s.scores <==> id in ids
    ensures forall i :: 0 <= i < |ids| ==> s.scores[ids[i]] == xs[i]
    ensures |ids| > 0 ==> s.node.Some? && s.node.value in s.scores && s.score == s.scores[s.node.value]
    ensures advice.Some? && advice.value in ids ==> s.node == advice
    ensures |ids| > 0 && (advice.None? || advice.value !in ids) ==> exists k ::
              && 0 <= k < |ids| && s.node == Some(ids[k])
              && (forall i :: 0 <= i < |ids| ==> s.scores[ids[i]] <= s.score)
              && (forall j :: 0 <= j < k ==> s.scores[ids[j]] < s.score)
  {
    var scores := ScoreMap(ids, xs);
    if advice.Some? && advice.value in scores then
      Choice(advice, scores[advice.value], scores)
    else if scores != map[] then Fallback(ids, xs)
    else NoChoice
  }

  /** `select_best_node_with_ollama(system_load)`, with `reply` the model's
      answer. It returns no new state: this path never writes the log. */
  function SelectWithOllama(a: Agent, load: string, useOllama: bool, reply: Option<string>): (r: Result<Choice, Fault>)
    requires Wf(a)
    ensures r.Failure? <==> ScoreEach(a, load, a.reporting).Failure?
    ensures r.Success? ==> r.value == Choose(a.reporting, ScoreEach(a, load, a.reporting).value, Advice(a, useOllama, reply))
  {
    match ScoreEach(a, load, a.reporting)
    case Failure(e) => Failure(e)
    case Success(xs) => Success(Choose(a.reporting, xs, Advice(a, useOllama, reply)))
  }

  /** The advisory path fails exactly when some reported node's score faults. */
  lemma SelectWithOllamaFails(a: Agent, load: string, useOllama: bool, reply: Option<string>)
    requires Wf(a)
    ensures SelectWithOllama(a, load, useOllama, reply).Failure? <==>
              exists id :: id in a.telemetry && Score(a, id, a.telemetry[id], load).Failure?
  {
    if ScoreEach(a, load, a.reporting).Success? {
      forall id | id in a.telemetry ensures Score(a, id, a.telemetry[id], load).Success? {
        var i :| 0 <= i < |a.reporting| && a.reporting[i] == id;
      }
    }
  }

  /** The advisory path scores exactly the reported nodes, returns the score
      recorded for the node it returns, and with no reported node returns
      `(None, 0, {})` whatever the reply. */
  lemma SelectWithOllamaScores(a: Agent, load: string, useOllama: bool, reply: Option<string>)
    requires Wf(a)
    ensures a.telemetry == map[] ==> SelectWithOllama(a, load, useOllama, reply) == Success(NoChoice)
    ensures var r := SelectWithOllama(a, load, useOllama, reply);
            r.Success? ==>
              && (forall id :: id in r.value.scores <==> id in a.telemetry)
              && (forall id :: id in a.telemetry ==> Score(a, id, a.telemetry[id], load) == Success(r.value.scores[id]))
              && (a.telemetry != map[] ==> r.value.node.Some? && r.value.score == r.value.scores[r.value.node.value])
  {
    var r := SelectWithOllama(a, load, useOllama, reply);
    OrdersEmpty(a.reporting, a.telemetry.Keys);
    if r.Success? {
      var xs := ScoreEach(a, load, a.reporting).value;
      forall id | id in a.telemetry
        ensures Score(a, id, a.telemetry[id], load) == Success(r.value.scores[id])
      {
        var i :| 0 <= i < |a.reporting| && a.reporting[i] == id;
      }
    }
  }

  /** A usable recommendation is followed. */
  lemma SelectWithOllamaFollowsAdvice(a: Agent, load: string, useOllama: bool, reply: Option<string>)
    requires Wf(a)
    ensures var r := SelectWithOllama(a, load, useOllama, reply);
            r.Success? && Advice(a, useOllama, reply).Some? ==> r.value.node == Advice(a, useOllama, reply)
  {
    var r := SelectWithOllama(a, load, useOllama, reply);
    var advice := Advice(a, useOllama, reply);
    if r.Success? && advice.Some? {
      assert advice.value in a.reporting;
    }
  }

  lemma FallbackIsFirstMax(ids: seq<NodeId>, xs: seq<real>, s: Choice)
    requires |ids| == |xs| && Distinct(ids) && |ids| > 0 && s == Choose(ids, xs, None)
    ensures exists k: nat :: IsFirstMax(xs, k) && s.node == Some(ids[k]) && s.score == xs[k]
  {
  }

  /** Without a usable recommendation the result is the first node, in
      iteration order, with the highest score. */
  lemma SelectWithOllamaFallsBack(a: Agent, load: string, useOllama: bool, reply: Option<string>)
    requires Wf(a) && a.telemetry != map[] && Advice(a, useOllama, reply).None?
    requires SelectWithOllama(a, load, useOllama, reply).Success?
    ensures ScoreEach(a, load, a.reporting).Success?
    ensures var xs := ScoreEach(a, load, a.reporting).value;
            var s := SelectWithOllama(a, load, useOllama, reply).value;
            exists k: nat :: IsFirstMax(xs, k) && k < |a.reporting| && s.node == Some(a.reporting[k]) && s.score == xs[k]
  {
    OrdersEmpty(a.reporting, a.telemetry.Keys);
    var xs := ScoreEach(a, load, a.reporting).value;
    var s := SelectWithOllama(a, load, useOllama, reply).value;
    assert s == Choose(a.reporting, xs, None);
    FallbackIsFirstMax(a.reporting, xs, s);
    var k: nat :| IsFirstMax(xs, k) && s.node == Some(a.reporting[k]) && s.score == xs[k];
    assert k < |a.reporting|;
  }

  /** The override checks only that the node has reported, not its score: a
      blocked node named by the model is returned with score 0. */
  lemma OverrideMayPickBlockedNode(a: Agent, load: string, reply: string, n: NodeId)
    requires Wf(a) && n in a.telemetry && n != "" && CutOff(a.telemetry[n])
    requires reply != "" && ParseReply(a, reply) == Some(n)
    requires SelectWithOllama(a, load, true, Some(reply)).Success?
    ensures SelectWithOllama(a, load, true, Some(reply)).value.node == Some(n)
    ensures SelectWithOllama(a, load, true, Some(reply)).value.score == 0.0
  {
    assert Advice(a, true, Some(reply)) == Some(n);
    SelectWithOllamaFollowsAdvice(a, load, true, Some(reply));
    SelectWithOllamaScores(a, load, true, Some(reply));
  }

  /** Without usable advice the fallback is Python's `max`, which agrees with
      `select_best_node` whenever some score exceeds the latter's floor. */
  lemma FallbackAgreesWithSelectBest(a: Agent, load: string, useOllama: bool, reply: Option<string>, now: Stamp)
    requires Wf(a) && Advice(a, useOllama, reply).None?
    requires SelectWithOllama(a, load, useOllama, reply).Success?
    requires exists id :: id in a.telemetry && Score(a, id, a.telemetry[id], load).Success?
                                            && Score(a, id, a.telemetry[id], load).value > Floor
    ensures SelectBest(a, load, now).Success?
    ensures SelectWithOllama(a, load, useOllama, reply).value.node == SelectBest(a, load, now).value.selection.node
  {
    var xs := ScoreEach(a, load, a.reporting).value;
    SomeScoreAboveFloor(a, load);
    var o, b := SelectWithOllama(a, load, useOllama, reply), SelectBest(a, load, now);
    assert b.Success?;
    assert o.value == Choose(a.reporting, xs, None);
    assert b.value.selection == Decide(a.reporting, xs);
    FallbackAgreesWithDecide(a.reporting, xs);
  }

  /** A node whose score beats the floor shows up in the list of scores. */
  lemma SomeScoreAboveFloor(a: Agent, load: string)
    requires Wf(a) && ScoreEach(a, load, a.reporting).Success?
    requires exists id :: id in a.telemetry && Score(a, id, a.telemetry[id], load).Success?
                                            && Score(a, id, a.telemetry[id], load).value > Floor
    ensures a.telemetry != map[]
    ensures var xs := ScoreEach(a, load, a.reporting).value;
            exists i :: 0 <= i < |xs| && xs[i] > Floor
  {
    var xs := ScoreEach(a, load, a.reporting).value;
    var id :| id in a.telemetry && Score(a, id, a.telemetry[id], load).Success?
                               && Score(a, id, a.telemetry[id], load).value > Floor;
    var i :| 0 <= i < |a.reporting| && a.reporting[i] == id;
    assert xs[i] > Floor;
  }

  /** Over the same scores, Python's `max` and the loop of `select_best_node`
      pick the same node once some score beats the loop's floor. */
  lemma FallbackAgreesWithDecide(ids: seq<NodeId>, xs: seq<real>)
    requires |ids| == |xs| && Distinct(ids)
    requires exists i :: 0 <= i < |xs| && xs[i] > Floor
    ensures Choose(ids, xs, None).node == Decide(ids, xs).node
  {
    var k := ArgMax(xs);
    PickAboveExactly(xs, Floor);
  }

  /** Score below which a node asking for work is turned away. */
  const AdmissionThreshold: real := 0.3

  datatype Admission = Admitted | Rejected(score: real)

  /** The admission check of `request_task_ollama`: a node that has reported
      is scored under the "normal" load and rejected below the threshold; a
      node that has not reported is let through unchecked. */
  function Admit(a: Agent, id: NodeId): (r: Result<Admission, Fault>)
    ensures id !in a.telemetry ==> r == Success(Admitted)
    ensures id in a.telemetry ==>
              (r.Failure? <==> Score(a, id, a.telemetry[id], "normal").Failure?)
    ensures id in a.telemetry && r.Success? ==>
              var s := Score(a, id, a.telemetry[id], "normal").value;
              (r.value.Rejected? <==> s < AdmissionThreshold) && (r.value.Rejected? ==> r.value.score == s)
  {
    if id in a.telemetry then
      match Score(a, id, a.telemetry[id], "normal")
      case Failure(e) => Failure(e)
      case Success(s) => if s < AdmissionThreshold then Success(Rejected(s)) else Success(Admitted)
    else Success(Admitted)
  }

  /** A reported node past a hard cut-off is always turned away. */
  lemma BlockedNodeRejected(a: Agent, id: NodeId)
    requires id in a.telemetry && CutOff(a.telemetry[id])
    ensures Admit(a, id) == Success(Rejected(0.0))
  {
  }
}

=== FILE: agents.dfy ===
/** The coordinator's state (`MasterAgent`) and its bookkeeping operations:
    construction with weight validation, node registration, telemetry
    updates and the performance-learning update. Every operation is a pure
    function from the old state to the new one. */
module Agents {
  import opened Wrappers
  import opened Weighting

  type NodeId = string

  /** An ISO-8601 timestamp taken from the clock; opaque to the model. */
  type Stamp = string

  /** Energy rating given to a node registered without one. */
  const DefaultWatts: real := 100.0

  /** A node's latest telemetry. `None` means the key is absent. */
  datatype Telemetry = Telemetry(
    cpuCores: Option<int>,
    cpuPercent: Option<real>,
    ramTotalGB: Option<real>,
    ramPercent: Option<real>,
    cpuTemp: Option<real>)

  /** A node's performance history. */
  datatype Stats = Stats(
    tasksCompleted: nat,
    totalTime: real,
    avgTime: real,
    failures: nat,
    successRate: real)

  /** Statistics of a node that has just been registered. */
  const FreshStats := Stats(0, 0.0, 0.0, 0, 1.0)

  /** One entry of the decision log. */
  datatype Decision = Decision(
    stamp: Stamp,
    selected: Option<NodeId>,
    score: real,
    allScores: map<NodeId, real>,
    systemLoad: string)

  /** The coordinator. `registered` is the insertion order of the energy and
      performance dictionaries (which always share their keys) and
      `reporting` the insertion order of the telemetry dictionary. */
  datatype Agent = Agent(
    weights: WeightVector,
    energy: map<NodeId, real>,
    stats: map<NodeId, Stats>,
    registered: seq<NodeId>,
    telemetry: map<NodeId, Telemetry>,
    reporting: seq<NodeId>,
    log: seq<Decision>)

  datatype ConfigError = WeightsDoNotSumToOne(total: real)

  /** Positions `i` and `j` of `s` hold different ids. */
  predicate Differ(s: seq<NodeId>, i: int, j: int) {
    0 <= i < |s| && 0 <= j < |s| && s[i] != s[j]
  }

  /** No id occurs twice. */
  predicate Distinct(s: seq<NodeId>) {
    forall i, j :: 0 <= i < j < |s| ==> Differ(s, i, j)
  }

  lemma DistinctAt(s: seq<NodeId>, i: nat, j: nat)
    requires Distinct(s) && i < j < |s|
    ensures s[i] != s[j]
  {
    assert Differ(s, i, j);
  }

  /** `order` lists the keys `keys` once each: a dictionary's iteration order. */
  predicate Orders(order: seq<NodeId>, keys: set<NodeId>) {
    && Distinct(order)
    && (forall id :: id in order ==> id in keys)
    && (forall id :: id in keys ==> id in order)
  }

  /** The statistics are consistent with the counters that produced them. */
  predicate StatsValid(p: Stats) {
    && (p.tasksCompleted == 0 ==> p.totalTime == 0.0 && p.avgTime == 0.0)
    && (p.tasksCompleted > 0 ==> p.avgTime == p.totalTime / p.tasksCompleted as real)
    && (p.tasksCompleted + p.failures == 0 ==> p.successRate == 1.0)
    && (p.tasksCompleted + p.failures > 0 ==>
          p.successRate == p.tasksCompleted as real / (p.tasksCompleted + p.failures) as real)
  }

  /** The invariant every reachable coordinator state keeps. */
  predicate Wf(a: Agent) {
    && SumsToOne(a.weights)
    && a.stats.Keys == a.energy.Keys
    && Orders(a.registered, a.energy.Keys)
    && Orders(a.reporting, a.telemetry.Keys)
    && a.telemetry.Keys <= a.energy.Keys
    && (forall id {:trigger StatsValid(a.stats[id])} :: id in a.stats ==> StatsValid(a.stats[id]))
  }

  /** A dictionary is empty exactly when its iteration order is. */
  lemma OrdersEmpty(order: seq<NodeId>, keys: set<NodeId>)
    requires Orders(order, keys)
    ensures keys == {} <==> |order| == 0
  {
    if |order| > 0 {
      assert order[0] in keys;
    }
  }

  /** Python dict insertion: a new key goes last, an existing key keeps its place. */
  function Remember(order: seq<NodeId>, id: NodeId): (r: seq<NodeId>)
    ensures id in r
    ensures forall k :: k in r <==> k in order || k == id
    ensures id in order ==> r == order
    ensures id !in order ==> r == order + [id]
    ensures Distinct(order) ==> Distinct(r)
  {
    if id in order then order
    else
      var r := order + [id];
      assert Distinct(order) ==> Distinct(r) by {
        if Distinct(order) {
          forall i, j | 0 <= i < j < |r| ensures Differ(r, i, j) {
            if j < |order| {
              assert Differ(order, i, j);
            }
          }
        }
      }
      r
  }

  /** `MasterAgent(weights)`: the supplied weights, or the defaults when none
      are given, must sum to 1.0 within the tolerance. */
  function New(weights: Option<WeightVector>): (r: Result<Agent, ConfigError>)
    ensures r.Failure? <==> Abs(Sum(weights.GetOr(Default)) - 1.0) > Tolerance
    ensures r.Failure? ==> r.error == WeightsDoNotSumToOne(Sum(weights.GetOr(Default)))
    ensures r.Success? ==> Wf(r.value) && r.value.weights == weights.GetOr(Default)
    ensures r.Success? ==> r.value.energy == map[] && r.value.telemetry == map[] && r.value.log == []
  {
    var w := weights.GetOr(Default);
    if Abs(Sum(w) - 1.0) > Tolerance then Failure(WeightsDoNotSumToOne(Sum(w)))
    else Success(Agent(w, map[], map[], [], map[], [], []))
  }

  /** Constructing with no weights always succeeds. */
  lemma DefaultConstructionSucceeds()
    ensures New(None).Success?
    ensures New(None).value.weights == Default
  {
    DefaultSumsToOne();
  }

  /** `register_node`: sets the energy rating and resets the statistics, even
      for a node that was already known; nothing else changes. */
  function RegisterNode(a: Agent, id: NodeId, watts: real): (r: Agent)
    ensures r.energy.Keys == a.energy.Keys + {id} && r.energy[id] == watts
    ensures r.stats.Keys == a.stats.Keys + {id} && r.stats[id] == FreshStats
    ensures forall k :: k in a.energy && k != id ==> r.energy[k] == a.energy[k]
    ensures forall k :: k in a.stats && k != id ==> r.stats[k] == a.stats[k]
    ensures r.registered == Remember(a.registered, id)
    ensures r.telemetry == a.telemetry && r.reporting == a.reporting
    ensures r.weights == a.weights && r.log == a.log
  {
    a.(energy := a.energy[id := watts],
       stats := a.stats[id := FreshStats],
       registered := Remember(a.registered, id))
  }

  lemma RegisterNodeKeepsWf(a: Agent, id: NodeId, watts: real)
    requires Wf(a)
    ensures Wf(RegisterNode(a, id, watts))
  {
  }

  /** `update_node_data`: the telemetry is overwritten; a node never seen
      before is registered at the default rating, while a known node keeps
      its rating and statistics. */
  function UpdateNodeData(a: Agent, id: NodeId, data: Telemetry): (r: Agent)
    ensures r.telemetry == a.telemetry[id := data]
    ensures r.reporting == Remember(a.reporting, id)
    ensures id in a.energy ==> r.energy == a.energy && r.stats == a.stats
    ensures id !in a.energy ==> r.energy == a.energy[id := DefaultWatts] && r.stats == a.stats[id := FreshStats]
    ensures r.registered == if id in a.energy then a.registered else Remember(a.registered, id)
    ensures r.weights == a.weights && r.log == a.log
  {
    var b := a.(telemetry := a.telemetry[id := data], reporting := Remember(a.reporting, id));
    if id !in a.energy then RegisterNode(b, id, DefaultWatts) else b
  }

  lemma UpdateNodeDataKeepsWf(a: Agent, id: NodeId, data: Telemetry)
    requires Wf(a)
    ensures Wf(UpdateNodeData(a, id, data))
  {
  }

  /** The counters after one more finished task. */
  function Record(p: Stats, taskTime: real, success: bool): (q: Stats)
    ensures success ==> q.tasksCompleted == p.tasksCompleted + 1 && q.failures == p.failures
    ensures success ==> q.totalTime == p.totalTime + taskTime
    ensures success ==> q.avgTime * q.tasksCompleted as real == q.totalTime
    ensures !success ==> q.tasksCompleted == p.tasksCompleted && q.failures == p.failures + 1
    ensures !success ==> q.totalTime == p.totalTime && q.avgTime == p.avgTime
    ensures q.successRate * (q.tasksCompleted + q.failures) as real == q.tasksCompleted as real
    ensures StatsValid(p) ==> StatsValid(q)
  {
    var c := if success then p.(tasksCompleted := p.tasksCompleted + 1,
                                totalTime := p.totalTime + taskTime,
                                avgTime := (p.totalTime + taskTime) / (p.tasksCompleted + 1) as real)
             else p.(failures := p.failures + 1);
    var total := c.tasksCompleted + c.failures;
    c.(successRate := if total > 0 then c.tasksCompleted as real / total as real else 0.5)
  }

  /** `update_performance`: an unseen node is registered first, then its
      statistics record the outcome; no other node and no other part of the
      state changes. */
  function UpdatePerformance(a: Agent, id: NodeId, taskTime: real, success: bool): (r: Agent)
    ensures id in r.stats
    ensures id in a.stats ==> r.stats == a.stats[id := Record(a.stats[id], taskTime, success)]
    ensures id !in a.stats ==> r.stats == a.stats[id := Record(FreshStats, taskTime, success)]
    ensures id in a.stats ==> r.energy == a.energy
    ensures id !in a.stats ==> r.energy == a.energy[id := DefaultWatts]
    ensures r.registered == if id in a.stats then a.registered else Remember(a.registered, id)
    ensures r.telemetry == a.telemetry && r.reporting == a.reporting
    ensures r.weights == a.weights && r.log == a.log
  {
    var b := if id !in a.stats then RegisterNode(a, id, DefaultWatts) else a;
    b.(stats := b.stats[id := Record(b.stats[id], taskTime, success)])
  }

  lemma UpdatePerformanceKeepsWf(a: Agent, id: NodeId, taskTime: real, success: bool)
    requires Wf(a)
    ensures Wf(UpdatePerformance(a, id, taskTime, success))
  {
  }

  /** The success rate is the share of finished tasks that succeeded, and the
      average time is the mean over the successes. */
  lemma UpdatePerformanceRates(a: Agent, id: NodeId, taskTime: real, success: bool)
    requires Wf(a)
    ensures var p := UpdatePerformance(a, id, taskTime, success).stats[id];
            && p.tasksCompleted + p.failures > 0
            && p.successRate == p.tasksCompleted as real / (p.tasksCompleted + p.failures) as real
            && 0.0 <= p.successRate <= 1.0
            && (p.tasksCompleted > 0 ==> p.avgTime == p.totalTime / p.tasksCompleted as real)
  {
    var p := UpdatePerformance(a, id, taskTime, success).stats[id];
    assert StatsValid(p);
    RateInUnit(p.tasksCompleted, p.failures);
  }

  lemma RateInUnit(c: nat, f: nat)
    requires c + f > 0
    ensures 0.0 <= c as real / (c + f) as real <= 1.0
  {
  }

  /** Three successes and one failure on a freshly registered node give a
      success rate of 0.75. */
  lemma ThreeSuccessesOneFailure(a: Agent, id: NodeId, t1: real, t2: real, t3: real, t4: real)
    ensures var b := RegisterNode(a, id, DefaultWatts);
            var c := UpdatePerformance(UpdatePerformance(UpdatePerformance(UpdatePerformance(
                       b, id, t1, true), id, t2, true), id, t3, true), id, t4, false);
            c.stats[id].successRate == 0.75 && c.stats[id].tasksCompleted == 3
            && c.stats[id].failures == 1 && c.stats[id].totalTime == t1 + t2 + t3
  {
  }
}

=== FILE: assignment.dfy ===
/** The stand-alone check a worker runs on its own readings
    (`decide_node_assignment`): refuse work when the CPU is hot, ask for
    less work when RAM is nearly full, otherwise accept work. */
module Assignment {
  import opened Wrappers
  import opened Agents
  import opened Scoring

  /** Default temperature threshold, in degrees Celsius. */
  const DefaultTempThreshold: real := 75.0
  /** Default RAM usage threshold, in percent. */
  const DefaultRamThreshold: real := 90.0

  datatype Verdict =
    | Cool     // too hot: let the node cool down
    | Lighten  // RAM nearly full: give it fewer tasks
    | Fit      // the node may receive tasks

  /** The reading dictionary has no `ram_percent` entry (Python `KeyError`). */
  datatype MissingKey = MissingRamPercent

  /** The message returned for each verdict. */
  function Message(v: Verdict): string {
    match v
    case Cool => "Nodo caliente, dejar enfriar"
    case Lighten => "RAM muy alta, asignar menos tareas"
    case Fit => "Nodo apto, puede recibir tareas"
  }

  /** How strongly the verdict holds the node back. */
  function Severity(v: Verdict): nat {
    match v
    case Fit => 0
    case Lighten => 1
    case Cool => 2
  }

  /** The node's temperature is known and above the threshold. */
  predicate Hot(cpuTemp: Option<real>, tempThreshold: real) {
    cpuTemp.Some? && cpuTemp.value > tempThreshold
  }

  /** The verdict for readings `info` and temperature `cpuTemp`. The
      temperature is looked at first, so a hot node is judged without
      reading its RAM usage; otherwise a missing RAM usage is an error. */
  function Classify(info: Telemetry, cpuTemp: Option<real>, tempThreshold: real, ramThreshold: real)
    : (r: Result<Verdict, MissingKey>)
    ensures r.Failure? <==> !Hot(cpuTemp, tempThreshold) && info.ramPercent.None?
    ensures r == Success(Cool) <==> Hot(cpuTemp, tempThreshold)
    ensures r == Success(Lighten) <==>
              !Hot(cpuTemp, tempThreshold) && info.ramPercent.Some? && info.ramPercent.value > ramThreshold
    ensures r == Success(Fit) <==>
              !Hot(cpuTemp, tempThreshold) && info.ramPercent.Some? && info.ramPercent.value <= ramThreshold
  {
    if Hot(cpuTemp, tempThreshold) then Success(Cool)
    else if info.ramPercent.None? then Failure(MissingRamPercent)
    else if info.ramPercent.value > ramThreshold then Success(Lighten)
    else Success(Fit)
  }

  /** `decide_node_assignment(info, cpu_temp, temp_threshold, ram_threshold)`. */
  function DecideNodeAssignment(info: Telemetry, cpuTemp: Option<real>, tempThreshold: real, ramThreshold: real)
    : (r: Result<string, MissingKey>)
    ensures r.Failure? <==> Classify(info, cpuTemp, tempThreshold, ramThreshold).Failure?
    ensures r.Success? ==> r.value == Message(Classify(info, cpuTemp, tempThreshold, ramThreshold).value)
    ensures r.Success? ==> r.value in {"Nodo caliente, dejar enfriar", "RAM muy alta, asignar menos tareas",
                                       "Nodo apto, puede recibir tareas"}
  {
    match Classify(info, cpuTemp, tempThreshold, ramThreshold)
    case Failure(e) => Failure(e)
    case Success(v) => Success(Message(v))
  }

  /** The three messages differ, so the returned string determines the verdict. */
  lemma MessageInjective(u: Verdict, v: Verdict)
    ensures Message(u) == Message(v) <==> u == v
  {
    if u != v {
      assert Message(u)[5] != Message(v)[5] || |Message(u)| != |Message(v)|;
    }
  }

  /** A node is accepted exactly when its temperature is unknown or at most
      the threshold and its RAM usage is present and at most the threshold;
      the comparisons are strict, so a reading equal to a threshold passes. */
  lemma AcceptedIff(info: Telemetry, cpuTemp: Option<real>, tempThreshold: real, ramThreshold: real)
    ensures DecideNodeAssignment(info, cpuTemp, tempThreshold, ramThreshold) == Success(Message(Fit)) <==>
              && (cpuTemp.None? || cpuTemp.value <= tempThreshold)
              && info.ramPercent.Some? && info.ramPercent.value <= ramThreshold
  {
    var c := Classify(info, cpuTemp, tempThreshold, ramThreshold);
    if c.Success? {
      MessageInjective(c.value, Fit);
    }
  }

  /** Higher readings never make the verdict milder. */
  lemma SeverityMonotone(info1: Telemetry, info2: Telemetry, t1: Option<real>, t2: Option<real>,
                         tempThreshold: real, ramThreshold: real)
    requires info1.ramPercent.Some? && info2.ramPercent.Some?
    requires info1.ramPercent.value <= info2.ramPercent.value
    requires t1.Some? ==> t2.Some? && t1.value <= t2.value
    ensures Classify(info1, t1, tempThreshold, ramThreshold).Success?
    ensures Classify(info2, t2, tempThreshold, ramThreshold).Success?
    ensures Severity(Classify(info1, t1, tempThreshold, ramThreshold).value)
              <= Severity(Classify(info2, t2, tempThreshold, ramThreshold).value)
  {
  }

  /** Under the default thresholds a node the worker finds fit is never
      blocked by the coordinator for heat or RAM: only a saturated CPU,
      which this check ignores, can still block it. */
  lemma FitNodeNotCutOff(info: Telemetry)
    requires Classify(info, info.cpuTemp, DefaultTempThreshold, DefaultRamThreshold) == Success(Fit)
    ensures CutOff(info) <==> CpuPercent(info) > CpuCritical
  {
  }
}

=== FILE: scoring.dfy ===
/** `MasterAgent.calculate_node_score`: three hard cut-offs, five sub-scores,
    load-dependent reweighting, renormalisation and a weighted sum. Python's
    `ZeroDivisionError` on the two divisions by a total is the `Fault`. */
module Scoring {
  import opened Wrappers
  import opened Weighting
  import opened Agents

  /** Temperature above which a node is blocked (`temp_max`). */
  const TempMax: real := 85.0
  /** RAM usage above which a node is blocked (`ram_critical`). */
  const RamCritical: real := 95.0
  /** CPU usage above which a node is blocked (`cpu_critical`). */
  const CpuCritical: real := 95.0
  /** Value read for a missing CPU or RAM percentage. */
  const MissingPercent: real := 100.0
  /** Temperature sub-score when the temperature is unknown. */
  const NeutralTemperature: real := 0.5
  /** History sub-score of a node without statistics. */
  const UnknownHistory: real := 0.5

  datatype Fault =
    | ZeroMaxWatts     // the largest energy rating is 0
    | ZeroWeightTotal  // the rescaled weights sum to 0

  /** The five sub-scores, in the order of the weight vector. */
  datatype Factors = Factors(cpu: real, ram: real, temperature: real, energy: real, history: real)

  function CpuPercent(t: Telemetry): real { t.cpuPercent.GetOr(MissingPercent) }

  function RamPercent(t: Telemetry): real { t.ramPercent.GetOr(MissingPercent) }

  /** The hard cut-offs: overheated, RAM exhausted or CPU saturated. A
      missing CPU or RAM reading always blocks the node; a missing
      temperature never does. */
  predicate CutOff(t: Telemetry) {
    || (t.cpuTemp.Some? && t.cpuTemp.value > TempMax)
    || RamPercent(t) > RamCritical
    || CpuPercent(t) > CpuCritical
  }

  /** The cut-offs in terms of the raw readings. */
  lemma CutOffReadings(t: Telemetry)
    ensures CutOff(t) <==>
              || (t.cpuTemp.Some? && t.cpuTemp.value > TempMax)
              || t.ramPercent.None? || t.ramPercent.value > RamCritical
              || t.cpuPercent.None? || t.cpuPercent.value > CpuCritical
  {
  }

  /** Largest rating among the listed ids that have one. */
  function MaxOver(ids: seq<NodeId>, energy: map<NodeId, real>): (r: Option<real>)
    ensures r.None? <==> forall i :: 0 <= i < |ids| ==> ids[i] !in energy
    ensures r.Some? ==> exists i :: 0 <= i < |ids| && ids[i] in energy && energy[ids[i]] == r.value
    ensures r.Some? ==> forall i :: 0 <= i < |ids| && ids[i] in energy ==> energy[ids[i]] <= r.value
  {
    if |ids| == 0 then None
    else
      var rest := MaxOver(ids[1..], energy);
      assert forall i :: 1 <= i < |ids| ==> ids[i] == ids[1..][i - 1];
      if ids[0] !in energy then rest
      else if rest.None? || energy[ids[0]] >= rest.value then Some(energy[ids[0]])
      else rest
  }

  /** `max(energy_consumption.values())`, or the default rating when no node
      is registered. */
  function MaxWatts(a: Agent): real {
    MaxOver(a.registered, a.energy).GetOr(DefaultWatts)
  }

  /** In a well-formed state the scan finds the largest registered rating. */
  lemma MaxWattsIsMax(a: Agent)
    requires Wf(a)
    ensures |a.energy| == 0 ==> MaxWatts(a) == DefaultWatts
    ensures forall id :: id in a.energy ==> a.energy[id] <= MaxWatts(a)
    ensures |a.energy| > 0 ==> exists id :: id in a.energy && a.energy[id] == MaxWatts(a)
  {
    var r := MaxOver(a.registered, a.energy);
    OrdersEmpty(a.registered, a.energy.Keys);
    forall id | id in a.energy ensures a.energy[id] <= MaxWatts(a) {
      var i :| 0 <= i < |a.registered| && a.registered[i] == id;
    }
  }

  /** The temperature sub-score (`max(0, (temp_max - t) / temp_max)`). */
  function TemperatureFactor(temp: Option<real>): real {
    match temp
    case None => NeutralTemperature
    case Some(c) => if (TempMax - c) / TempMax > 0.0 then (TempMax - c) / TempMax else 0.0
  }

  /** The history sub-score: the node's success rate, or a neutral value
      for a node without statistics. */
  function HistoryFactor(a: Agent, id: NodeId): real {
    if id in a.stats then a.stats[id].successRate else UnknownHistory
  }

  /** The history sub-score is neutral for a node without statistics and a
      rate in [0, 1] for one with consistent statistics. */
  lemma HistoryFactorRange(a: Agent, id: NodeId)
    ensures id !in a.stats ==> HistoryFactor(a, id) == UnknownHistory
    ensures id in a.stats && StatsValid(a.stats[id]) ==> 0.0 <= HistoryFactor(a, id) <= 1.0
  {
    if id in a.stats {
      var p := a.stats[id];
      if p.tasksCompleted + p.failures > 0 {
        RateInUnit(p.tasksCompleted, p.failures);
      }
    }
  }

  /** The five sub-scores of a node that passed the cut-offs. */
  function SubScores(a: Agent, id: NodeId, t: Telemetry, maxWatts: real): Factors
    requires maxWatts != 0.0
  {
    Factors(
      (100.0 - CpuPercent(t)) / 100.0,
      (100.0 - RamPercent(t)) / 100.0,
      TemperatureFactor(t.cpuTemp),
      1.0 - (if id in a.energy then a.energy[id] else DefaultWatts) / maxWatts,
      HistoryFactor(a, id))
  }

  /** What the sub-scores mean: an idle CPU scores fully and a saturated or
      unreported one not at all, likewise for RAM; the node with the
      largest rating earns no energy credit, and an unrated node is rated
      as the default. */
  lemma SubScoresMeaning(a: Agent, id: NodeId, t: Telemetry, maxWatts: real)
    requires maxWatts != 0.0
    ensures var f := SubScores(a, id, t, maxWatts);
            && (f.cpu == 1.0 <==> t.cpuPercent == Some(0.0))
            && (f.cpu == 0.0 <==> CpuPercent(t) == 100.0)
            && (f.ram == 0.0 <==> RamPercent(t) == 100.0)
            && (id in a.energy && a.energy[id] == maxWatts ==> f.energy == 0.0)
            && (id !in a.energy ==> (f.energy == 0.0 <==> maxWatts == DefaultWatts))
            && (id !in a.stats ==> f.history == UnknownHistory)
  {
  }

  /** The weighted sum of the sub-scores. */
  function Dot(w: WeightVector, f: Factors): real {
    f.cpu * w.cpu + f.ram * w.ram + f.temperature * w.temperature
      + f.energy * w.energy + f.history * w.history
  }

  /** A node perfect in every respect earns the whole weight total; one
      with nothing to offer earns nothing. */
  lemma DotExtremes(w: WeightVector)
    ensures Dot(w, Factors(1.0, 1.0, 1.0, 1.0, 1.0)) == Sum(w)
    ensures Dot(w, Factors(0.0, 0.0, 0.0, 0.0, 0.0)) == 0.0
  {
  }

  /** The score of node `id` with telemetry `t` under load label `load`. */
  function Score(a: Agent, id: NodeId, t: Telemetry, load: string): (r: Result<real, Fault>)
    ensures CutOff(t) ==> r == Success(0.0)
    ensures r.Failure? ==> !CutOff(t)
    ensures r == Failure(ZeroMaxWatts) <==> !CutOff(t) && MaxWatts(a) == 0.0
    ensures r == Failure(ZeroWeightTotal) <==>
              !CutOff(t) && MaxWatts(a) != 0.0 && Sum(AdjustForLoad(a.weights, load)) == 0.0
  {
    if CutOff(t) then Success(0.0)
    else
      var maxWatts := MaxWatts(a);
      if maxWatts == 0.0 then Failure(ZeroMaxWatts)
      else
        var adjusted := AdjustForLoad(a.weights, load);
        if Sum(adjusted) == 0.0 then Failure(ZeroWeightTotal)
        else Success(Dot(Normalize(adjusted), SubScores(a, id, t, maxWatts)))
  }

  /** A missing CPU or RAM reading counts as 100% and blocks the node. */
  lemma MissingReadingScoresZero(a: Agent, id: NodeId, t: Telemetry, load: string)
    requires t.cpuPercent.None? || t.ramPercent.None?
    ensures Score(a, id, t, load) == Success(0.0)
  {
  }

  /** Every registered rating is positive. */
  predicate PositiveRatings(a: Agent) {
    forall id :: id in a.energy ==> a.energy[id] > 0.0
  }

  /** Every reading present lies in [0, 100]. */
  predicate Plausible(t: Telemetry) {
    && (t.cpuPercent.Some? ==> 0.0 <= t.cpuPercent.value <= 100.0)
    && (t.ramPercent.Some? ==> 0.0 <= t.ramPercent.value <= 100.0)
    && (t.cpuTemp.Some? ==> 0.0 <= t.cpuTemp.value <= 100.0)
  }

  predicate InUnit(f: Factors) {
    && 0.0 <= f.cpu <= 1.0 && 0.0 <= f.ram <= 1.0 && 0.0 <= f.temperature <= 1.0
    && 0.0 <= f.energy <= 1.0 && 0.0 <= f.history <= 1.0
  }

  /** The temperature sub-score is neutral when unknown and lies in [0, 1]
      for any non-negative temperature. */
  lemma TemperatureFactorRange(temp: Option<real>)
    ensures temp.None? ==> TemperatureFactor(temp) == 0.5
    ensures temp.Some? && temp.value >= 0.0 ==> 0.0 <= TemperatureFactor(temp) <= 1.0
    ensures temp.Some? && 0.0 <= temp.value <= TempMax ==>
              TemperatureFactor(temp) * TempMax == TempMax - temp.value
    ensures TemperatureFactor(temp) >= 0.0
    ensures temp.Some? ==> (TemperatureFactor(temp) == 0.0 <==> temp.value >= TempMax)
  {
  }

  /** The energy sub-score of a positive rating no larger than the maximum
      lies in [0, 1). */
  lemma EnergyFactorRange(watts: real, maxWatts: real)
    requires 0.0 < watts <= maxWatts
    ensures 0.0 <= 1.0 - watts / maxWatts < 1.0
  {
    var q := watts / maxWatts;
    var d := maxWatts - watts;
    assert q * maxWatts == watts;
    assert (1.0 - q) * maxWatts == d;
    MulNonNeg(d, 1.0 / maxWatts);
    assert d * (1.0 / maxWatts) == 1.0 - q;
    MulPos(watts, 1.0 / maxWatts);
    assert watts * (1.0 / maxWatts) == q;
  }

  lemma MulPos(a: real, b: real)
    requires a > 0.0 && b > 0.0
    ensures a * b > 0.0
  {
  }

  lemma MulNonNeg(a: real, b: real)
    requires a >= 0.0 && b >= 0.0
    ensures a * b >= 0.0
  {
  }

  /** A weighted sum with non-negative weights summing to one of sub-scores in
      [0, 1] lies in [0, 1]. */
  lemma DotInUnit(w: WeightVector, f: Factors)
    requires NonNegative(w) && Sum(w) == 1.0 && InUnit(f)
    ensures 0.0 <= Dot(w, f) <= 1.0
  {
    var p1 := TermBound(f.cpu, w.cpu);
    var p2 := TermBound(f.ram, w.ram);
    var p3 := TermBound(f.temperature, w.temperature);
    var p4 := TermBound(f.energy, w.energy);
    var p5 := TermBound(f.history, w.history);
    assert Dot(w, f) == p1 + p2 + p3 + p4 + p5;
    BoundedSum(p1, p2, p3, p4, p5, w.cpu, w.ram, w.temperature, w.energy, w.history);
  }

  lemma BoundedSum(p1: real, p2: real, p3: real, p4: real, p5: real,
                    b1: real, b2: real, b3: real, b4: real, b5: real)
    requires 0.0 <= p1 <= b1 && 0.0 <= p2 <= b2 && 0.0 <= p3 <= b3
    requires 0.0 <= p4 <= b4 && 0.0 <= p5 <= b5
    ensures 0.0 <= p1 + p2 + p3 + p4 + p5 <= b1 + b2 + b3 + b4 + b5
  {
  }

  lemma TermBound(x: real, w: real) returns (p: real)
    requires 0.0 <= x <= 1.0 && w >= 0.0
    ensures p == x * w && 0.0 <= p <= w
  {
    p := x * w;
    MulNonNeg(x, w);
    MulNonNeg(1.0 - x, w);
    assert (1.0 - x) * w == w - x * w;
  }

  /** Lowering only the CPU sub-score, under a non-negative CPU weight, does
      not raise the weighted sum. */
  lemma DotMonotoneInCpu(w: WeightVector, f1: Factors, f2: Factors)
    requires w.cpu >= 0.0 && f2 == f1.(cpu := f2.cpu) && f2.cpu <= f1.cpu
    ensures Dot(w, f2) <= Dot(w, f1)
  {
    var x1, x2 := f1.cpu * w.cpu, f2.cpu * w.cpu;
    var rest := f1.ram * w.ram + f1.temperature * w.temperature
                + f1.energy * w.energy + f1.history * w.history;
    assert x2 <= x1 by {
      MulNonNeg(f1.cpu - f2.cpu, w.cpu);
      assert x1 - x2 == (f1.cpu - f2.cpu) * w.cpu;
    }
    assert Dot(w, f1) == x1 + rest;
    assert Dot(w, f2) == x2 + rest;
  }

  /** The sub-scores of a plausible node in a well-formed state lie in [0, 1]. */
  lemma SubScoresInUnit(a: Agent, id: NodeId, t: Telemetry)
    requires Wf(a) && PositiveRatings(a) && id in a.energy
    requires Plausible(t) && !CutOff(t)
    ensures MaxWatts(a) > 0.0 && InUnit(SubScores(a, id, t, MaxWatts(a)))
    ensures SubScores(a, id, t, MaxWatts(a)).energy < 1.0
  {
    MaxWattsIsMax(a);
    EnergyFactorRange(a.energy[id], MaxWatts(a));
    TemperatureFactorRange(t.cpuTemp);
    var p := a.stats[id];
    assert StatsValid(p);
    if p.tasksCompleted + p.failures > 0 {
      RateInUnit(p.tasksCompleted, p.failures);
    }
  }

  /** With non-negative weights, positive ratings and plausible readings, the
      score never faults and lies in [0, 1]. */
  lemma ScoreInUnit(a: Agent, id: NodeId, t: Telemetry, load: string)
    requires Wf(a) && NonNegative(a.weights) && PositiveRatings(a) && id in a.energy
    requires Plausible(t)
    ensures Score(a, id, t, load).Success?
    ensures 0.0 <= Score(a, id, t, load).value <= 1.0
  {
    if !CutOff(t) {
      SubScoresInUnit(a, id, t);
      AdjustedTotalPositive(a.weights, load);
      DotInUnit(Normalize(AdjustForLoad(a.weights, load)), SubScores(a, id, t, MaxWatts(a)));
    }
  }

  /** Holding everything else fixed, a busier CPU never raises the score. */
  lemma ScoreMonotoneInCpu(a: Agent, id: NodeId, t: Telemetry, c1: real, c2: real, load: string)
    requires Wf(a) && NonNegative(a.weights) && PositiveRatings(a) && id in a.energy
    requires Plausible(t) && 0.0 <= c1 <= c2 <= 100.0
    ensures var s1 := Score(a, id, t.(cpuPercent := Some(c1)), load);
            var s2 := Score(a, id, t.(cpuPercent := Some(c2)), load);
            s1.Success? && s2.Success? && s2.value <= s1.value
  {
    var t1, t2 := t.(cpuPercent := Some(c1)), t.(cpuPercent := Some(c2));
    ScoreInUnit(a, id, t1, load);
    ScoreInUnit(a, id, t2, load);
    if !CutOff(t2) {
      assert !CutOff(t1);
      AdjustedTotalPositive(a.weights, load);
      var n := Normalize(AdjustForLoad(a.weights, load));
      var f1 := SubScores(a, id, t1, MaxWatts(a));
      var f2 := SubScores(a, id, t2, MaxWatts(a));
      assert f2 == f1.(cpu := f2.cpu) && f2.cpu <= f1.cpu;
      DotMonotoneInCpu(n, f1, f2);
    }
  }
}

=== FILE: selection.dfy ===
/** `MasterAgent.select_best_node` and the decision log it feeds: score every
    node that has reported telemetry, keep the first strictly highest score
    above the starting bound -1, and append one record of the decision.
    Also the stub `adjust_weights_from_history` that reads the log. */
module Selection {
  import opened Wrappers
  import opened Agents
  import opened Scoring

  /** The starting value of the running best score. */
  const Floor: real := -1.0

  /** The result triple `(node_id, score, scores_detail)`. */
  datatype Choice = Choice(node: Option<NodeId>, score: real, scores: map<NodeId, real>)

  /** `(None, 0, {})`, returned when no node has reported. */
  const NoChoice := Choice(None, 0.0, map[])

  /** A selection together with the coordinator state it leaves behind. */
  datatype Step = Step(selection: Choice, next: Agent)

  /** Reference meaning of "first maximal": `k` holds a largest value and
      every earlier position holds a strictly smaller one. */
  predicate IsFirstMax(xs: seq<real>, k: nat) {
    && k < |xs|
    && (forall i :: 0 <= i < |xs| ==> xs[i] <= xs[k])
    && (forall j :: 0 <= j < k ==> xs[j] < xs[k])
  }

  /** There is at most one first maximal position. */
  lemma FirstMaxUnique(xs: seq<real>, k1: nat, k2: nat)
    requires IsFirstMax(xs, k1) && IsFirstMax(xs, k2)
    ensures k1 == k2
  {
    assert xs[k1] <= xs[k2] && xs[k2] <= xs[k1];
  }

  /** The loop of `select_best_node` over the scores in iteration order:
      starting from (`None`, `floor`), a position replaces the current best
      only when its value is strictly greater. */
  function PickAbove(xs: seq<real>, floor: real): (r: (Option<nat>, real))
    ensures r.1 >= floor
    ensures forall i :: 0 <= i < |xs| ==> xs[i] <= r.1
    ensures r.0.None? ==> r.1 == floor
    ensures r.0.Some? ==> IsFirstMax(xs, r.0.value) && xs[r.0.value] == r.1 && r.1 > floor
  {
    if |xs| == 0 then (None, floor)
    else
      var prefix := xs[..|xs| - 1];
      var last := xs[|xs| - 1];
      var (k, best) := PickAbove(prefix, floor);
      assert forall i :: 0 <= i < |prefix| ==> prefix[i] == xs[i];
      if last > best then (Some(|xs| - 1), last) else (k, best)
  }

  /** The loop finds a node exactly when some value beats the floor, and then
      it is the first maximal one. */
  lemma PickAboveExactly(xs: seq<real>, floor: real)
    ensures PickAbove(xs, floor).0.None? <==> forall i :: 0 <= i < |xs| ==> xs[i] <= floor
    ensures forall k: nat :: IsFirstMax(xs, k) && xs[k] > floor ==> PickAbove(xs, floor).0 == Some(k)
  {
    var r := PickAbove(xs, floor);
    forall k: nat | IsFirstMax(xs, k) && xs[k] > floor
      ensures r.0 == Some(k)
    {
      FirstMaxUnique(xs, k, r.0.value);
    }
  }

  /** Python's `max(d, key=d.get)` over a non-empty sequence of values: the
      first position holding the largest value. */
  function ArgMax(xs: seq<real>): (k: nat)
    requires |xs| > 0
    ensures IsFirstMax(xs, k)
  {
    if |xs| == 1 then 0
    else
      var prefix := xs[..|xs| - 1];
      var k := ArgMax(prefix);
      assert forall i :: 0 <= i < |prefix| ==> prefix[i] == xs[i];
      if xs[|xs| - 1] > xs[k] then |xs| - 1 else k
  }

  /** Once some value beats the floor, the bounded loop and `max` agree. */
  lemma PickAboveAgreesWithArgMax(xs: seq<real>, floor: real)
    requires exists i :: 0 <= i < |xs| && xs[i] > floor
    ensures PickAbove(xs, floor).0 == Some(ArgMax(xs))
  {
    PickAboveExactly(xs, floor);
    var k := ArgMax(xs);
    var i :| 0 <= i < |xs| && xs[i] > floor;
    assert xs[k] > floor;
  }

  /** Scores the listed nodes in order; the first fault aborts the whole scan,
      as a raised exception aborts the Python loop. */
  function ScoreEach(a: Agent, load: string, ids: seq<NodeId>): (r: Result<seq<real>, Fault>)
    requires forall i :: 0 <= i < |ids| ==> ids[i] in a.telemetry
    ensures r.Success? ==> |r.value| == |ids|
    ensures r.Success? ==> forall i :: 0 <= i < |ids| ==>
              Score(a, ids[i], a.telemetry[ids[i]], load) == Success(r.value[i])
    ensures r.Failure? ==> exists i ::
              && 0 <= i < |ids|
              && Score(a, ids[i], a.telemetry[ids[i]], load) == Failure(r.error)
  {
    if |ids| == 0 then Success([])
    else
      match Score(a, ids[0], a.telemetry[ids[0]], load)
      case Failure(e) => Failure(e)
      case Success(s) =>
        match ScoreEach(a, load, ids[1..])
        case Failure(e) =>
          assert forall i :: 1 <= i < |ids| ==> ids[1..][i - 1] == ids[i];
          Failure(e)
        case Success(rest) =>
          assert forall i :: 1 <= i < |ids| ==> ids[1..][i - 1] == ids[i];
          Success([s] + rest)
  }

  /** The `scores_detail` dictionary built alongside the scan. */
  function ScoreMap(ids: seq<NodeId>, xs: seq<real>): (m: map<NodeId, real>)
    requires |ids| == |xs| && Distinct(ids)
    ensures forall id :: id in m <==> id in ids
    ensures forall i :: 0 <= i < |ids| ==> m[ids[i]] == xs[i]
    ensures m == map[] <==> |ids| == 0
  {
    forall i, j | 0 <= i < j < |ids| ensures ids[i] != ids[j] {
      DistinctAt(ids, i, j);
    }
    var m := map i | 0 <= i < |ids| :: ids[i] := xs[i];
    assert |ids| > 0 ==> ids[0] in m;
    m
  }

  /** The selection made from the scores `xs` of the nodes `ids`, listed in
      iteration order. */
  function Decide(ids: seq<NodeId>, xs: seq<real>): (s: Choice)
    requires |ids| == |xs| && Distinct(ids)
    ensures forall id :: id in s.scores <==> id in ids
    ensures forall i :: 0 <= i < |ids| ==> s.scores[ids[i]] == xs[i]
    ensures forall id :: id in s.scores ==> s.scores[id] <= s.score
    ensures s.node.None? ==> s.score == Floor
    ensures s.node.Some? ==> exists k ::
              && 0 <= k < |ids| && ids[k] == s.node.value
              && s.scores[ids[k]] == s.score && s.score > Floor
              && forall j :: 0 <= j < k ==> s.scores[ids[j]] < s.score
  {
    var (k, best) := PickAbove(xs, Floor);
    var scores := ScoreMap(ids, xs);
    assert forall id :: id in scores ==> exists i :: 0 <= i < |ids| && ids[i] == id && scores[id] == xs[i];
    if k.Some? then
      assert scores[ids[k.value]] == best;
      Choice(Some(ids[k.value]), best, scores)
    else
      Choice(None, best, scores)
  }

  /** `select_best_node(system_load)` at time `now`: on success exactly one
      record of the decision is appended when some node has reported, none
      otherwise; a fault leaves no new state behind. */
  function SelectBest(a: Agent, load: string, now: Stamp): (r: Result<Step, Fault>)
    requires Wf(a)
    ensures a.telemetry == map[] ==> r == Success(Step(NoChoice, a))
    ensures r.Failure? <==> a.telemetry != map[] && ScoreEach(a, load, a.reporting).Failure?
    ensures r.Success? && a.telemetry != map[] ==>
              var s := r.value.selection;
              r.value.next == a.(log := a.log + [Decision(now, s.node, s.score, s.scores, load)])
    ensures r.Success? && a.telemetry != map[] ==>
              r.value.selection == Decide(a.reporting, ScoreEach(a, load, a.reporting).value)
  {
    if a.telemetry == map[] then Success(Step(NoChoice, a))
    else
      match ScoreEach(a, load, a.reporting)
      case Failure(e) => Failure(e)
      case Success(xs) =>
        var s := Decide(a.reporting, xs);
        Success(Step(s, a.(log := a.log + [Decision(now, s.node, s.score, s.scores, load)])))
  }

  /** Selection fails exactly when some reported node's score faults. */
  lemma SelectBestFails(a: Agent, load: string, now: Stamp)
    requires Wf(a)
    ensures SelectBest(a, load, now).Failure? <==>
              exists id :: id in a.telemetry && Score(a, id, a.telemetry[id], load).Failure?
  {
    OrdersEmpty(a.reporting, a.telemetry.Keys);
    if ScoreEach(a, load, a.reporting).Success? {
      forall id | id in a.telemetry ensures Score(a, id, a.telemetry[id], load).Success? {
        var i :| 0 <= i < |a.reporting| && a.reporting[i] == id;
      }
    }
  }

  /** The score map covers exactly the reported nodes and holds each node's
      score. */
  lemma SelectBestScores(a: Agent, load: string, now: Stamp)
    requires Wf(a)
    ensures var r := SelectBest(a, load, now);
            r.Success? ==>
              && (forall id :: id in r.value.selection.scores <==> id in a.telemetry)
              && (forall id :: id in a.telemetry ==>
                    Score(a, id, a.telemetry[id], load) == Success(r.value.selection.scores[id]))
  {
    var r := SelectBest(a, load, now);
    OrdersEmpty(a.reporting, a.telemetry.Keys);
    if r.Success? && a.telemetry != map[] {
      var xs := ScoreEach(a, load, a.reporting).value;
      var s := Decide(a.reporting, xs);
      assert r.value.selection == s;
      forall id | id in a.telemetry
        ensures Score(a, id, a.telemetry[id], load) == Success(s.scores[id])
      {
        var i :| 0 <= i < |a.reporting| && a.reporting[i] == id;
      }
    }
  }

  /** The selected node is the first, in iteration order, with the highest
      score, provided that score beats the floor -1; otherwise nothing is
      selected and the reported score is -1. */
  lemma SelectBestFirstMax(a: Agent, load: string, now: Stamp)
    requires Wf(a)
    ensures var r := SelectBest(a, load, now);
            r.Success? && a.telemetry != map[] ==>
              var s := r.value.selection;
              && (forall id :: id in s.scores ==> s.scores[id] <= s.score)
              && (s.node.None? ==> s.score == Floor)
              && (s.node.Some? ==> exists k ::
                    && 0 <= k < |a.reporting| && a.reporting[k] == s.node.value
                    && s.scores[a.reporting[k]] == s.score && s.score > Floor
                    && forall j :: 0 <= j < k ==> s.scores[a.reporting[j]] < s.score)
  {
    var r := SelectBest(a, load, now);
    if r.Success? && a.telemetry != map[] {
      var xs := ScoreEach(a, load, a.reporting).value;
      assert r.value.selection == Decide(a.reporting, xs);
    }
  }

  /** Selection touches nothing but the log, so the invariant survives it. */
  lemma SelectBestKeepsWf(a: Agent, load: string, now: Stamp)
    requires Wf(a)
    ensures SelectBest(a, load, now).Success? ==> Wf(SelectBest(a, load, now).value.next)
    ensures SelectBest(a, load, now).Success? ==>
              |SelectBest(a, load, now).value.next.log| == |a.log| + (if a.telemetry == map[] then 0 else 1)
  {
  }

  /** When the weights are non-negative, the ratings positive and every
      report plausible, some node is always selected once any has reported. */
  lemma SelectBestSelects(a: Agent, load: string, now: Stamp)
    requires Wf(a) && Weighting.NonNegative(a.weights) && PositiveRatings(a)
    requires forall id :: id in a.telemetry ==> Plausible(a.telemetry[id])
    requires a.telemetry != map[]
    ensures SelectBest(a, load, now).Success?
    ensures SelectBest(a, load, now).value.selection.node.Some?
  {
    forall id | id in a.telemetry ensures Score(a, id, a.telemetry[id], load).Success?
                                      && Score(a, id, a.telemetry[id], load).value >= 0.0 {
      ScoreInUnit(a, id, a.telemetry[id], load);
    }
    SelectBestFails(a, load, now);
    SelectBestScores(a, load, now);
    SelectBestFirstMax(a, load, now);
    var s := SelectBest(a, load, now).value.selection;
    OrdersEmpty(a.reporting, a.telemetry.Keys);
    assert s.scores[a.reporting[0]] >= 0.0;
  }

  /** How many recent decisions the weight tuning looks at. */
  const Window: nat := 100
  /** How many recent decisions the weight tuning needs before acting. */
  const MinHistory: nat := 10

  /** `log[-n:]` for a positive `n`: the last `n` records, or all of them
      when there are fewer. */
  function Recent(log: seq<Decision>, n: nat): (r: seq<Decision>)
    requires n > 0
    ensures |r| == if |log| < n then |log| else n
    ensures r == log[|log| - |r|..]
  {
    if |log| <= n then log else log[|log| - n..]
  }

  /** What `adjust_weights_from_history` got to do. */
  datatype Tuning = NeedsMoreData | Placeholder

  /** `adjust_weights_from_history`: returns early with too little history;
      otherwise reaches a placeholder. Either way the state is unchanged. */
  function AdjustWeightsFromHistory(a: Agent): (r: (Agent, Tuning))
    ensures r.0 == a
    ensures r.1 == NeedsMoreData <==> |a.log| < MinHistory
  {
    if |Recent(a.log, Window)| < MinHistory then (a, NeedsMoreData) else (a, Placeholder)
  }
}

=== FILE: text.dfy ===
/** The slice of Python's `str` behaviour the advisory reply parser relies on:
    `strip()`, `split('\n')[0]`, `lower()` and the substring test `a in b`. */
module Text {

  /** Python's `str.isspace()` for a single character. */
  predicate IsSpace(c: char) {
    || c == ' '
    || ('\t' <= c <= '\r')
    || ('\U{1c}' <= c <= '\U{1f}')
    || c == '\U{85}' || c == '\U{a0}' || c == '\U{1680}'
    || ('\U{2000}' <= c <= '\U{200a}')
    || c == '\U{2028}' || c == '\U{2029}' || c == '\U{202f}' || c == '\U{205f}'
    || c == '\U{3000}'
  }

  /** Drops leading whitespace. */
  function TrimStart(s: string): (r: string)
    ensures |r| <= |s| && r == s[|s| - |r|..]
    ensures forall k :: 0 <= k < |s| - |r| ==> IsSpace(s[k])
    ensures |r| > 0 ==> !IsSpace(r[0])
  {
    if |s| > 0 && IsSpace(s[0]) then TrimStart(s[1..]) else s
  }

  /** Drops trailing whitespace. */
  function TrimEnd(s: string): (r: string)
    ensures |r| <= |s| && r == s[..|r|]
    ensures forall k :: |r| <= k < |s| ==> IsSpace(s[k])
    ensures |r| > 0 ==> !IsSpace(r[|r| - 1])
  {
    if |s| > 0 && IsSpace(s[|s| - 1]) then TrimEnd(s[..|s| - 1]) else s
  }

  /** Python's `s.strip()`: the longest slice of `s` that neither starts nor
      ends with whitespace, everything cut away being whitespace. */
  function Strip(s: string): (r: string)
    ensures exists i, j :: SlicedOut(s, r, i, j)
    ensures |r| > 0 ==> !IsSpace(r[0]) && !IsSpace(r[|r| - 1])
  {
    var t := TrimStart(s);
    var r := TrimEnd(t);
    TrimmedSlice(s, t, r);
    TrimmedEnds(t, r);
    r
  }

  /** Cutting trailing whitespace from `t`, which does not start with
      whitespace, leaves `r` with whitespace at neither end. */
  lemma TrimmedEnds(t: string, r: string)
    requires |t| > 0 ==> !IsSpace(t[0])
    requires |r| <= |t| && r == t[..|r|] && (|r| > 0 ==> !IsSpace(r[|r| - 1]))
    ensures |r| > 0 ==> !IsSpace(r[0]) && !IsSpace(r[|r| - 1])
  {
    if |r| > 0 {
      assert r[0] == t[0];
    }
  }

  /** `r` is `s[i..j]` and everything outside it is whitespace. */
  predicate SlicedOut(s: string, r: string, i: int, j: int) {
    && 0 <= i <= j <= |s| && r == s[i..j]
    && (forall k :: 0 <= k < i ==> IsSpace(s[k]))
    && (forall k :: j <= k < |s| ==> IsSpace(s[k]))
  }

  /** Cutting leading whitespace from `s` to get `t`, then trailing
      whitespace from `t` to get `r`, leaves a slice of `s` with only
      whitespace cut away. */
  lemma TrimmedSlice(s: string, t: string, r: string)
    requires |t| <= |s| && t == s[|s| - |t|..] && forall k :: 0 <= k < |s| - |t| ==> IsSpace(s[k])
    requires |r| <= |t| && r == t[..|r|] && forall k :: |r| <= k < |t| ==> IsSpace(t[k])
    ensures exists i, j :: SlicedOut(s, r, i, j)
  {
    var i := |s| - |t|;
    var j := i + |r|;
    SliceOfSlice(s, t, i, |r|);
    forall k | j <= k < |s| ensures IsSpace(s[k]) {
      assert s[k] == t[k - i];
    }
    assert SlicedOut(s, r, i, j);
  }

  /** A prefix of a suffix is a slice. */
  lemma SliceOfSlice(s: string, t: string, i: nat, n: nat)
    requires i + n <= |s| && t == s[i..]
    ensures t[..n] == s[i..i + n]
  {
  }

  /** Python's `s.split('\n')[0]`: everything before the first newline. */
  function FirstLine(s: string): (r: string)
    ensures r <= s
    ensures '\n' !in r
    ensures |r| < |s| ==> s[|r|] == '\n'
  {
    if |s| == 0 || s[0] == '\n' then "" else [s[0]] + FirstLine(s[1..])
  }

  /** Case folding of one character (ASCII letters). */
  function LowerChar(c: char): char {
    if 'A' <= c <= 'Z' then (c as int - 'A' as int + 'a' as int) as char else c
  }

  /** Python's `s.lower()`, character by character. */
  function Lower(s: string): (r: string)
    ensures |r| == |s|
    ensures forall k :: 0 <= k < |s| ==> r[k] == LowerChar(s[k])
  {
    seq(|s|, k requires 0 <= k < |s| => LowerChar(s[k]))
  }

  /** Lower-casing leaves no upper-case ASCII letter, keeps whitespace where
      it was, and doing it twice is doing it once. */
  lemma LowerFolds(s: string)
    ensures forall k :: 0 <= k < |s| ==> !('A' <= Lower(s)[k] <= 'Z')
    ensures forall k :: 0 <= k < |s| ==> (IsSpace(Lower(s)[k]) <==> IsSpace(s[k]))
    ensures Lower(Lower(s)) == Lower(s)
  {
  }

  /** Reference meaning of Python's `needle in hay` on strings: `needle`
      occurs at some offset of `hay`. */
  ghost predicate Occurs(needle: string, hay: string) {
    exists i :: 0 <= i <= |hay| && needle <= hay[i..]
  }

  /** Executable substring test, scanning `hay` from the left. */
  function Contains(hay: string, needle: string): bool
  {
    needle <= hay || (|hay| > 0 && Contains(hay[1..], needle))
  }

  /** The scan agrees with the reference meaning, both ways. */
  lemma {:induction false} ContainsOccurs(hay: string, needle: string)
    ensures Contains(hay, needle) <==> Occurs(needle, hay)
  {
    if needle <= hay {
      assert needle <= hay[0..];
    } else if |hay| == 0 {
      forall i | 0 <= i <= |hay| ensures !(needle <= hay[i..]) {
        assert hay[i..] == hay;
      }
    } else {
      ContainsOccurs(hay[1..], needle);
      if Occurs(needle, hay[1..]) {
        var i :| 0 <= i <= |hay[1..]| && needle <= hay[1..][i..];
        assert hay[1..][i..] == hay[i + 1..];
      }
      if Occurs(needle, hay) {
        var i :| 0 <= i <= |hay| && needle <= hay[i..];
        assert i != 0;
        assert hay[1..][i - 1..] == hay[i..];
      }
    }
  }
}

=== FILE: weighting.dfy ===
/** The coordinator's weight vector: its default, its construction-time
    validation, the load-dependent rescaling and the renormalisation that the
    scorer applies before taking the weighted sum. */
module Weighting {

  /** The five named coefficients of the score, one per sub-score. */
  datatype WeightVector = WeightVector(
    cpu: real,          // cpu_availability
    ram: real,          // ram_availability
    temperature: real,  // temperature
    energy: real,       // energy_efficiency
    history: real)      // historical_performance

  /** The weights used when the caller supplies none. */
  const Default := WeightVector(0.30, 0.25, 0.15, 0.20, 0.10)

  /** How far the coefficients' sum may stray from 1.0 at construction. */
  const Tolerance: real := 0.01

  function Sum(w: WeightVector): real {
    w.cpu + w.ram + w.temperature + w.energy + w.history
  }

  function Abs(x: real): real {
    if x < 0.0 then -x else x
  }

  /** The construction-time check: the sum is within the tolerance of 1.0. */
  predicate SumsToOne(w: WeightVector) {
    Abs(Sum(w) - 1.0) <= Tolerance
  }

  predicate NonNegative(w: WeightVector) {
    w.cpu >= 0.0 && w.ram >= 0.0 && w.temperature >= 0.0 && w.energy >= 0.0 && w.history >= 0.0
  }

  /** The default weights pass validation with no slack at all. */
  lemma DefaultSumsToOne()
    ensures Sum(Default) == 1.0 && SumsToOne(Default) && NonNegative(Default)
  {
  }

  /** The validation accepts exactly the vectors whose sum lies in [0.99, 1.01]. */
  lemma SumsToOneRange(w: WeightVector)
    ensures SumsToOne(w) <==> 0.99 <= Sum(w) <= 1.01
  {
  }

  /** Load-dependent rescaling: "low" favours energy efficiency over CPU,
      "high" favours CPU and temperature over energy; any other label is
      neutral. */
  function AdjustForLoad(w: WeightVector, load: string): (r: WeightVector)
    ensures r.ram == w.ram && r.history == w.history
    ensures load != "low" && load != "high" ==> r == w
    ensures NonNegative(w) ==> NonNegative(r)
  {
    if load == "low" then
      w.(energy := w.energy * 1.5, cpu := w.cpu * 0.7)
    else if load == "high" then
      w.(cpu := w.cpu * 1.3, temperature := w.temperature * 1.3, energy := w.energy * 0.5)
    else
      w
  }

  /** Divides every coefficient by the total, so the result sums to 1 and
      keeps the proportions of the input. */
  function Normalize(w: WeightVector): (r: WeightVector)
    requires Sum(w) != 0.0
    ensures Sum(r) == 1.0
    ensures r.cpu * Sum(w) == w.cpu && r.ram * Sum(w) == w.ram
    ensures r.temperature * Sum(w) == w.temperature
    ensures r.energy * Sum(w) == w.energy && r.history * Sum(w) == w.history
    ensures NonNegative(w) && Sum(w) > 0.0 ==> NonNegative(r)
  {
    var t := Sum(w);
    var r := WeightVector(w.cpu / t, w.ram / t, w.temperature / t, w.energy / t, w.history / t);
    DivDistributes(w.cpu, w.ram, w.temperature, w.energy, w.history, t);
    assert t / t == 1.0;
    r
  }

  /** Rescaling a validated non-negative vector never leaves a zero total, so
      the renormalisation that follows is always defined. */
  lemma AdjustedTotalPositive(w: WeightVector, load: string)
    requires NonNegative(w) && SumsToOne(w)
    ensures Sum(AdjustForLoad(w, load)) >= Sum(w) / 2.0 > 0.0
  {
  }

  /** Under "low" the renormalised energy share does not shrink and the CPU
      share does not grow. */
  lemma LowLoadShiftsShares(w: WeightVector)
    requires NonNegative(w) && Sum(w) > 0.0
    ensures var lo := Normalize(AdjustForLoad(w, "low"));
            var base := Normalize(w);
            lo.energy >= base.energy && lo.cpu <= base.cpu
  {
    var t := Sum(w);
    var tl := Sum(AdjustForLoad(w, "low"));
    assert 0.7 * t <= tl <= 1.5 * t;
    ShareGrows(w.energy, 1.5, t, tl);
    ShareShrinks(w.cpu, 0.7, t, tl);
  }

  /** Under "high" the renormalised CPU and temperature shares do not shrink
      and the energy share does not grow. */
  lemma HighLoadShiftsShares(w: WeightVector)
    requires NonNegative(w) && Sum(w) > 0.0
    ensures var hi := Normalize(AdjustForLoad(w, "high"));
            var base := Normalize(w);
            hi.cpu >= base.cpu && hi.temperature >= base.temperature && hi.energy <= base.energy
  {
    var t := Sum(w);
    var th := Sum(AdjustForLoad(w, "high"));
    assert 0.5 * t <= th <= 1.3 * t;
    ShareGrows(w.cpu, 1.3, t, th);
    ShareGrows(w.temperature, 1.3, t, th);
    ShareShrinks(w.energy, 0.5, t, th);
  }

  /** Scaling a coefficient by k while the total grows by at most k cannot
      shrink its share. */
  lemma ShareGrows(a: real, k: real, t: real, t2: real)
    requires a >= 0.0 && t > 0.0 && 0.0 < t2 <= k * t
    ensures a / t <= (a * k) / t2
  {
    assert a * t2 <= a * (k * t);
    assert a / t == (a * t2) / (t * t2);
    assert (a * k) / t2 == (a * k * t) / (t * t2);
  }

  /** Scaling a coefficient by k while the total shrinks by at most k cannot
      grow its share. */
  lemma ShareShrinks(a: real, k: real, t: real, t2: real)
    requires a >= 0.0 && t > 0.0 && t2 >= k * t && k * t > 0.0
    ensures (a * k) / t2 <= a / t
  {
    assert a * (k * t) <= a * t2;
    assert a / t == (a * t2) / (t * t2);
    assert (a * k) / t2 == (a * k * t) / (t * t2);
  }

  /** Division by the total distributes over the five-term sum. */
  lemma DivDistributes(a: real, b: real, c: real, d: real, e: real, t: real)
    requires t != 0.0
    ensures a / t + b / t + c / t + d / t + e / t == (a + b + c + d + e) / t
    ensures (a + b + c + d + e) / t * t == a + b + c + d + e
  {
  }
}

=== FILE: wrappers.dfy ===
/** Option and Result wrappers used throughout the model: `Option` for Python's
    `None`-or-value, `Result` for an operation that may raise. */
module Wrappers {

  datatype Option<+T> = None | Some(value: T) {

    /** The wrapped value, or `default` when there is none. */
    function GetOr(default: T): T {
      match this
      case Some(v) => v
      case None => default
    }
  }

  datatype Result<+T, +E> = Success(value: T) | Failure(error: E)
}
